=== FILE: README.md ===
# Order lifecycle core, modelled in Dafny

This project models the order-lifecycle core of a small Django service. An
order moves through the statuses `CREATED`, `UPDATED`, `SHIPPED`,
`DELIVERED` and `CANCELLED`. Every accepted change increments the order's
version by one. A notification is then handed to a RabbitMQ topic exchange
on a best-effort basis. The project also models the pure pieces of the
traffic generator script.

Modules, one per source file plus shared helpers:

- `Validators` (`orders/validators.py`): the transition table, the `Status`
  graph it encodes, and `validate_status_transition`.
- `Models` (`orders/models.py`): the row shape, the column widths, the
  default version 0 and the `__str__` rendering.
- `Views` (`orders/views.py`): `get_order`, `create_order` and
  `update_status`. Each is a total function from a store and a request to
  a reply and a new store. The store is a `map` from order id (the primary
  key) to `Row(status, version)`. The row lock and the transaction become
  the indivisibility of one step on that map. `ViewsProperties` holds the
  properties that relate several requests.
- `Publisher` (`orders/publisher.py`): routing keys and payloads of the two
  events, what a subscriber reads back from them, and `_publish` as a
  function that cannot fail.
- `PumpEvents` (`scripts/pump_events.py`): `_parse_http_paths`,
  `STATUSES_FLOW`, and one iteration of the generator loop on its mirror
  of live orders.
- `Json`, `Text`, `Wrappers`: decoded JSON values with Python truthiness;
  Python string operations (`strip`, `split`, ASCII `upper`, `int`/`str`
  of integers, `int()` applied to text); `Option`.

How the model reads the request bodies:

- A body is `None` when it is not valid JSON, which gives 400.
- A body that decodes to something other than an object makes
  `body["status"]` or `body["id"]` raise TypeError. The view does not
  catch that, so the model answers `ServerError` (500).
- The new status is tested for membership in a set of strings. A JSON list
  or object cannot be hashed, so it raises TypeError (500). `null`, a bool
  or a number is simply not in the set, which gives 400.
- The optional `version` is converted by the integer column. A bool counts
  as 0 or 1. Text is read as `int()` reads an optional sign and ASCII digits
  (`Text.IntOfText`):
  surrounding whitespace is skipped, but the information separators
  U+001C..U+001F are not, although `strip` would remove them; and a
  numeral of more than 4300 digits is refused, Python's default limit.
  Any other text, a list or an object raises (500); what `int()` reads
  beyond sign and ASCII digits is listed under "## Left out".

The store invariant `Views.WellFormed` has two parts. Ids and statuses fit
their columns. Each version plus the longest chain still open to its
status (`Validators.HeightOf`) is at most 3. It follows that no version
ever exceeds 3, so the integer column cannot overflow.

Behaviour of the code worth noting:

- `create_order` stores whatever status text the body gives, for example
  `"FOO"` or `"DELIVERED"`. So a stored status need not be reachable from
  `CREATED`. No update from an unknown status succeeds.
- `create_order` does not publish an `order.created` event. The builder
  `publish_order_created` exists, but only the generator emits that shape.
- When no expected version is sent, a missing row is always 404. The
  existence check only matters when a version was sent.

## Model

| member | source | states |
|---|---|---|
| Validators.ValidateStatusTransition | orders/validators.py:35-47 | with no current status every request is permitted; otherwise permitted exactly when the new value is a status text that the graph lets follow the current one; a list/dict raises TypeError; a rejection carries the source's message |
| Validators.TableIsGraph | orders/validators.py:26-32 | the text-keyed table, with its empty fallback for unknown keys, is the same relation as the `Status` graph (both directions) |
| Validators.NoSelfTransition | orders/validators.py:26-32 | repeating the current status is rejected for every status text |
| Validators.TerminalStatuses | orders/validators.py:30-31 | from DELIVERED and from CANCELLED every requested value is rejected |
| Validators.UnknownStatusRejects | orders/validators.py:44 | a current status the table does not list rejects every new value |
| Validators.PermitsLowersHeight | orders/validators.py:26-32 | every permitted transition strictly lowers the longest remaining chain, so the graph is acyclic |
| Validators.ChainBound | orders/validators.py:26-32 | any chain of permitted transitions has at most 3 steps, and at most the height of its first status |
| Validators.LongestChain | orders/validators.py:26-32 | CREATED, UPDATED, SHIPPED, DELIVERED is a chain, so the bound of 3 is reached |
| Models.NewRow | orders/models.py:7 | a new row starts at the column default, version 0, with the status it was given |
| Models.RenderRoundTrip | orders/models.py:9-10 | `id:status:version` reads back as the same order when id and status hold no colon |
| Models.RenderEndsWithVersion | orders/models.py:9-10 | whatever the id and status, the text after the last colon of the rendering parses to the version |
| Publisher.OrderCreated | orders/publisher.py:58-59 | routing key `order.created`; payload keys exactly `order_id` and `status` |
| Publisher.CreatedRoundTrip | orders/publisher.py:58-59 | a subscriber reads back exactly the id and status the creation event was built from |
| Publisher.OrderStatusUpdated | orders/publisher.py:61-65 | routing key `order.status.updated`; `order_id`, `new_status`, `version` always present; `meta` present exactly when truthy; no other key |
| Publisher.StatusUpdatedRoundTrip | orders/publisher.py:61-65 | a subscriber reads back the id, status and integer version, and the meta when it was truthy |
| Publisher.Publish | orders/publisher.py:29-56 | no host (unset or empty) means nothing is sent; otherwise a transport failure is absorbed as a drop; the result has no failure case |
| Views.GetOrder | orders/views.py:15-21 | returns exactly the stored id, status and version when the id is stored, and not-found otherwise |
| Views.CreateOrder | orders/views.py:23-32 | 400 exactly when the body is not JSON or lacks `id`; created=false exactly when the `id` is stored text, and then its row is returned unchanged; created=true exactly when the `id` is new text and it and the status (default CREATED) fit their columns, and then that row is inserted at version 0; 400 carries `invalid payload`; 500 exactly for a non-object body or an id that can be neither returned nor inserted; no other row changes |
| Views.GetOrCreate | orders/views.py:31 | an existing id returns its row with created=false and no change; an insertable id and status are stored at version 0 with created=true; every other case is a server error with the store unchanged |
| Views.ExpectedVersion | orders/views.py:46-56 | `null` or an absent version means no filter; an integer is used as is; a bool selects 0 or 1; text selects the value `int()` reads, and cannot be compared exactly when `int()` fails; lists and objects cannot be compared |
| Views.LockRow | orders/views.py:54-57 | a row is found exactly when the id is stored and, if a version was sent, the stored version equals it; the row found is the stored one |
| Text.IntOfText | orders/views.py:55-56 | an information separator anywhere in the text, or more than 4300 digits, makes the conversion fail; otherwise the value is that of the stripped text's sign and digits |
| Text.IntOfPaddedDecimal | orders/views.py:55-56 | `int()` reads back the decimal rendering of any integer of at most 4300 digits, surrounded by any whitespace it skips |
| Text.LongNumeralRefused | orders/views.py:55-56 | a numeral of more than 4300 digits is refused, whatever its value |
| Text.InfoSeparatorNotSkipped | orders/views.py:55-56 | U+001C before a digit is removed by `strip` but makes `int()` fail |
| ViewsProperties.VersionTextSelects | orders/views.py:55-56 | a version sent as padded decimal text of `n`, within 4300 digits, selects the row at version `n` |
| ViewsProperties.VersionWithInfoSeparator | orders/views.py:55-56 | a version text holding U+001C fails the conversion: the update answers 500 and writes nothing |
| ViewsProperties.VersionTooLong | orders/views.py:55-56 | a version numeral of more than 4300 digits fails the conversion: the update answers 500 and writes nothing |
| Views.UpdateStatus | orders/views.py:34-84 | succeeds exactly when the body names a status, the row is found at the expected version, and the graph permits the change; success writes the new status and version+1 to that row only and publishes the written values; 404 only for an absent id; 409 only for a present id with a different sent version; 400 exactly for an undecodable body, a missing `status`, or a hashable status the graph rejects on a found row; 500 exactly for a non-object body, an unreadable version, or a list/object status on a found row; no other kind of reply is possible; any failure leaves the store unchanged |
| Views.Transition | orders/views.py:51-78 | inside the transaction, every outcome other than success leaves the store unchanged and emits no event |
| Views.HandleUpdate | orders/views.py:80-84 | an event is handed to the publisher exactly when the update succeeded |
| ViewsProperties.UpdateMissingOrder | orders/views.py:59-64 | an absent id answers 404 with or without an expected version, and writes nothing |
| ViewsProperties.UpdateStaleVersion | orders/views.py:55-63 | a present id with a different expected version answers 409, never 404 or success, and writes nothing |
| ViewsProperties.UpdateRejected | orders/views.py:66-69 | a transition the state machine rejects answers 400 with its message and writes nothing |
| ViewsProperties.UpdateNeedsStatus | orders/views.py:43-49 | a body without `status` answers 400 before the store is touched |
| ViewsProperties.UpdateUndecodable | orders/views.py:43-49 | a body that is not valid JSON answers 400 with `invalid payload` and writes nothing |
| ViewsProperties.UpdateNonObject | orders/views.py:44-45 | a body that decodes to something other than an object raises TypeError: 500, nothing written |
| ViewsProperties.UpdateUnhashableStatus | orders/validators.py:44-45 | a list or object as the new status of a found row raises TypeError: 500, nothing written |
| ViewsProperties.UpdateAccepted | orders/views.py:71-84 | a permitted update answers with the new status and version+1, which `get_order` then reads back; every other order reads as before |
| ViewsProperties.CreateExisting | orders/views.py:31-32 | creating an existing id answers 200 with the stored row and changes nothing |
| ViewsProperties.CreateNewDefault | orders/views.py:27-32 | creating a new id without a status inserts CREATED at version 0 and answers 201 |
| ViewsProperties.CreateNewWithStatus | orders/views.py:27-32 | creating a new id with a status that fits its column inserts that status at version 0 and answers 201, whatever else the body holds |
| ViewsProperties.CreateNeedsId | orders/views.py:25-29 | a body without `id` answers 400 and the store is not touched |
| ViewsProperties.CreateIdempotent | orders/views.py:31-32 | a second create of the same id answers created=false with what the first stored, and changes nothing |
| ViewsProperties.CreatePreservesWellFormed | orders/models.py:4-7 | creation keeps ids within 64 and statuses within 32 characters, one row per id, and the version bound |
| ViewsProperties.UpdatePreservesWellFormed | orders/views.py:66-75 | an update keeps the store invariant, since the version rises by one as the open chain shrinks |
| ViewsProperties.VersionBounded | orders/models.py:7 | in a well-formed store every version lies between 0 and 3 |
| ViewsProperties.PublishOutcomeIrrelevant | orders/views.py:80-84 | whatever the broker host and behaviour, the reply and the store are the same |
| ViewsProperties.VersionCountsSuccesses | orders/views.py:72-75 | over any sequence of updates, the version grows by exactly the number of successes and other rows never change |
| ViewsProperties.VersionIsSuccessCount | orders/views.py:27-32 | after creation, an order's version equals the number of successful updates applied to it |
| ViewsProperties.SameVersionRace | orders/views.py:52-63 | of two updates that read the same version, once the first succeeds the second is a conflict, and the version rose by one |
| ViewsProperties.Scenario | orders/views.py:23-84 | create ORD-1, update to UPDATED, skip to DELIVERED, ship at version 1, then a stale version: the replies are 201, 200 at version 1, 400, 200 at version 2, 409 |
| PumpEvents.Rooted | scripts/pump_events.py:65 | the path always starts with `/`; a path that already does is kept, any other gets one `/` in front |
| PumpEvents.ParseEntry | scripts/pump_events.py:61-65 | every parsed method has no lower-case ASCII letter and every parsed path starts with `/` |
| PumpEvents.LowerVerbCapitalised | scripts/pump_events.py:61-65 | `get:/orders` parses to method `GET` and path `/orders`: each lower-case letter of the method becomes its capital |
| PumpEvents.EntryWithoutColon | scripts/pump_events.py:63-64 | an entry without a colon is a GET of the whole entry |
| PumpEvents.EntrySplitsAtFirstColon | scripts/pump_events.py:61-62 | only the first colon splits, so the path keeps any further colons |
| PumpEvents.ParseEntries | scripts/pump_events.py:57-65 | at most one route per piece, each upper-case and rooted; the routes themselves are fixed by `ParseEntriesAppend` and `OnePiece` |
| PumpEvents.ParseHttpPaths | scripts/pump_events.py:53-66 | empty text gives no routes; text without a comma gives no route when blank and otherwise exactly the route of its stripped text; there are no more routes than comma-separated pieces |
| PumpEvents.HttpPathsAround | scripts/pump_events.py:57 | the routes of `a,b` are the routes of `a` followed by those of `b`; with the comma-free case this fixes the result of every text |
| PumpEvents.ParseEntriesAppend | scripts/pump_events.py:57-65 | the routes of consecutive runs of pieces are the routes of each run, in order |
| PumpEvents.OnePiece | scripts/pump_events.py:58-65 | a single piece gives no route when blank after stripping, and otherwise the route of its stripped text |
| PumpEvents.BlankPiecesSkipped | scripts/pump_events.py:58-60 | blank pieces contribute nothing wherever they stand: removing them from among other pieces leaves the routes unchanged |
| PumpEvents.EntriesInOrder | scripts/pump_events.py:57-65 | with no blank piece, the k-th route is parsed from the k-th piece |
| PumpEvents.RoutesRoundTrip | scripts/pump_events.py:53-66 | parsing the comma-joined text of canonical routes gives back the routes, in order |
| PumpEvents.FlowIsAllowedTransitions | scripts/pump_events.py:44-50 | the generator's flow lists, without repeats, exactly the validator's allowed transitions for every status text |
| PumpEvents.GeneratorStep | scripts/pump_events.py:159-193 | a create puts the id in the mirror as CREATED at version 0 and emits the creation event; a terminal pick changes nothing and emits nothing; otherwise the pick moves to a status the validator permits at version+1, nothing else changes, and the emitted payload is the status-updated event without meta |
| PumpEvents.GeneratorPreservesMirror | scripts/pump_events.py:166-192 | every mirrored status stays a known one and every version stays within the chain bound |
| PumpEvents.ServiceAcceptsGeneratedUpdate | scripts/pump_events.py:183-192 | when the service holds the mirror's row, it accepts the generated update at the mirror's version and ends in the mirror's new status and version |

## Left out

- Broker I/O through pika is not modelled: connection parameters, exchange declaration, `basic_publish`, the JSON encoding of the body, and logging with `print`. For the service's `_publish` in `orders/publisher.py`, `Publisher.Publish` stands for it, with the broker's behaviour as a parameter.
- `scripts/consumer.py` is broker plumbing and is not modelled. `Publisher.ReadCreated` and `Publisher.ReadStatusUpdated` only describe what a subscriber can read from a payload.
- HTTP plumbing is not modelled: URL routing, the method decorators (which answer 405), `JsonResponse`, and the exact JSON bodies of the 404 and 409 answers.
- `parse_json_body` is not modelled: a request body is given already decoded, or as `None` when it is not valid JSON.
- Concurrency is not modelled: `select_for_update`, `transaction.atomic` and concurrent requests. Each request is one atomic step on the map. Two racing requests are modelled as one after the other (`ViewsProperties.SameVersionRace`).
- `updated_at` and all timing (`time.sleep`, `EVENT_RATE`) are not modelled, since they carry no decision.
- Environment configuration is not modelled: the broker host is a parameter, and `HTTP_PATHS` arrives as text.
- Randomness is not modelled: `rand_order_id`, `random.random` and `random.choice` in the generator become the parameters `newId`, `coin`, `pick` and `choice`.
- `http_worker` and the HTTP side of the generator issue network requests only and are not modelled.
- Views.GetOrCreate: a JSON `id` or `status` that is a number, bool, list or object is not modelled. The database layer would convert it to text with `str()`; the model answers `ServerError` instead. A `null` id does give a server error in the source too.
- Views.GetOrCreate: assumes a database that enforces `max_length` (64 for `id`, 32 for `status`), where inserting a longer value fails and the view answers 500. A database that does not enforce it, such as SQLite, stores the longer value and answers 201; that behaviour is not modelled.
- Text.IntOfText: reads an optional sign and ASCII digits only. Python's `int()` also accepts `_` between digits (`"1_0"` is 10) and non-ASCII decimal digits; the model refuses those texts, so such a version answers 500 where the source filters on the number.
- Views.ExpectedVersion: reads text versions as an optional sign and ASCII digits, after skipping the whitespace `int()` skips. Python's `int()` also accepts `_` between digits and non-ASCII digits; those are not modelled. The 4300-digit limit is Python's default; changing it through `PYTHONINTMAXSTRDIGITS` or `sys.set_int_max_str_digits` is not modelled. JSON numbers with a fraction are not part of the `Json` type.
- PumpEvents.GeneratorStep: models an iteration whose `publish` returned. The generator's own `publish` has no `try`, and `main` catches only `KeyboardInterrupt`. So a broker failure ends `main` before the mirror update that follows the publish, leaving the mirror unchanged. That failure is not modelled.
- Text.Upper: upper-cases ASCII letters only. Python's `upper()` also maps other letters, some of them to several characters.
- The generator's create step overwrites a mirror entry whose id `rand_order_id` happened to repeat. The model keeps that overwrite and makes no attempt to rule it out.

=== FILE: json.dfy ===
/**
  Decoded JSON values, as `json.loads` hands them to the views and as the
  event payloads carry them. Fractional numbers are not part of the model.
 */
module Json {
  import opened Text

  datatype Json =
    | Null
    | Bool(b: bool)
    | Int(i: int)
    | Str(s: string)
    | Arr(items: seq<Json>)
    | Obj(fields: map<string, Json>)

  /** Python truthiness (`if meta:`): empty containers, `0`, `""`, `False` and `None` are false. */
  predicate Truthy(j: Json) {
    match j
    case Null => false
    case Bool(b) => b
    case Int(i) => i != 0
    case Str(s) => s != ""
    case Arr(items) => items != []
    case Obj(fields) => fields != map[]
  }

  /** Lists and dicts are unhashable in Python: testing one for set membership raises TypeError. */
  predicate Hashable(j: Json) {
    !j.Arr? && !j.Obj?
  }

  /** `d.get(key, default)` on a decoded JSON object. */
  function Get(fields: map<string, Json>, key: string, default: Json): Json {
    if key in fields then fields[key] else default
  }

  /** Python's `str(v)` for the scalar values a message is formatted from. */
  function Display(j: Json): string
    requires Hashable(j)
  {
    match j
    case Null => "None"
    case Bool(b) => if b then "True" else "False"
    case Int(i) => Decimal(i)
    case Str(s) => s
  }
}

=== FILE: models.dfy ===
/**
  The `Order` table. The store is a map keyed by the primary key `id`, so it
  holds at most one row per id by construction; each row keeps the status
  and the optimistic-concurrency version. `updated_at` is not modelled.
 */
module Models {
  import opened Wrappers
  import opened Text

  /** `max_length` of the `id` column. */
  const MaxIdLength: nat := 64
  /** `max_length` of the `status` column. */
  const MaxStatusLength: nat := 32

  /** The non-key columns of one row. */
  datatype Row = Row(status: string, version: int)

  /** All rows of the table, by primary key. */
  type Store = map<string, Row>

  /** An order as the views read it: its key together with its columns. */
  datatype Order = Order(id: string, status: string, version: int)

  /** A row as first inserted: the `version` column defaults to 0. */
  function NewRow(status: string): (r: Row)
    ensures r.version == 0 && r.status == status
  {
    Row(status, 0)
  }

  /** `__str__`: `id:status:version`. */
  function Render(o: Order): string {
    o.id + ":" + o.status + ":" + Decimal(o.version)
  }

  /** Reads an `id:status:version` rendering back, when it has exactly three fields. */
  function ParseRendered(text: string): Option<Order> {
    var fields := Split(text, ':');
    if |fields| != 3 then None
    else
      match ParseInt(fields[2])
      case None => None
      case Some(v) => Some(Order(fields[0], fields[1], v))
  }

  lemma DecimalHasNoColon(n: int)
    ensures ':' !in Decimal(n)
  {
  }

  /** The rendering of an order whose id and status hold no colon reads back as the same order. */
  lemma RenderRoundTrip(o: Order)
    requires ':' !in o.id && ':' !in o.status
    ensures ParseRendered(Render(o)) == Some(o)
  {
    var fields := [o.id, o.status, Decimal(o.version)];
    DecimalHasNoColon(o.version);
    assert Join(fields, ':') == Render(o) by {
      assert Join(fields[2..], ':') == Decimal(o.version);
      assert Join(fields[1..], ':') == o.status + ":" + Decimal(o.version);
    }
    SplitJoin(fields, ':');
    DecimalRoundTrip(o.version);
  }

  /** Whatever the id and status hold, the text after the last colon of the rendering is the version. */
  lemma RenderEndsWithVersion(o: Order)
    ensures var fields := Split(Render(o), ':'); ParseInt(fields[|fields| - 1]) == Some(o.version)
  {
    DecimalHasNoColon(o.version);
    var text := Render(o);
    var j := |o.id| + 1 + |o.status|;
    assert text[j] == ':' && text[j + 1..] == Decimal(o.version);
    SplitLastPiece(text, ':', j);
    DecimalRoundTrip(o.version);
  }
}

=== FILE: publisher.dfy ===
/**
  Event construction for the broker and the best-effort publishing contract.
  The broker connection itself is abstracted to the outcome it would have.
 */
module Publisher {
  import opened Wrappers
  import opened Json

  const CreatedKey: string := "order.created"
  const StatusUpdatedKey: string := "order.status.updated"

  /** A message for the topic exchange: routing key and JSON payload. */
  datatype Event = Event(routingKey: string, payload: map<string, Json>)

  /** `publish_order_created(order_id, status)`. */
  function OrderCreated(orderId: string, status: string): (e: Event)
    ensures e.routingKey == CreatedKey
    ensures e.payload.Keys == {"order_id", "status"}
  {
    Event(CreatedKey, map["order_id" := Str(orderId), "status" := Str(status)])
  }

  /**
    `publish_order_status_updated(order_id, status, version, meta)`: the
    three fixed fields always, and `meta` only when it is truthy.
   */
  function OrderStatusUpdated(orderId: string, status: string, version: int, meta: Json): (e: Event)
    ensures e.routingKey == StatusUpdatedKey
    ensures {"order_id", "new_status", "version"} <= e.payload.Keys
    ensures "meta" in e.payload <==> Truthy(meta)
    ensures e.payload.Keys <= {"order_id", "new_status", "version", "meta"}
  {
    var payload := map["order_id" := Str(orderId), "new_status" := Str(status), "version" := Int(version)];
    if Truthy(meta) then Event(StatusUpdatedKey, payload["meta" := meta]) else Event(StatusUpdatedKey, payload)
  }

  /** What a subscriber bound to `order.created` reads from an event: order id and status. */
  function ReadCreated(e: Event): Option<(string, string)> {
    if e.routingKey == CreatedKey && "order_id" in e.payload && "status" in e.payload
       && e.payload["order_id"].Str? && e.payload["status"].Str?
    then Some((e.payload["order_id"].s, e.payload["status"].s))
    else None
  }

  /** What a subscriber bound to `order.status.updated` reads: id, new status, version, and meta (`{}` if absent). */
  function ReadStatusUpdated(e: Event): Option<(string, string, int, Json)> {
    if e.routingKey == StatusUpdatedKey && "order_id" in e.payload && "new_status" in e.payload
       && "version" in e.payload && e.payload["order_id"].Str? && e.payload["new_status"].Str?
       && e.payload["version"].Int?
    then
      var meta := if "meta" in e.payload then e.payload["meta"] else Obj(map[]);
      Some((e.payload["order_id"].s, e.payload["new_status"].s, e.payload["version"].i, meta))
    else None
  }

  /** A creation event carries exactly the id and status it was built from. */
  lemma CreatedRoundTrip(orderId: string, status: string)
    ensures ReadCreated(OrderCreated(orderId, status)) == Some((orderId, status))
  {
  }

  /** A status-updated event carries the id, status and version it was built from, and the meta when truthy. */
  lemma StatusUpdatedRoundTrip(orderId: string, status: string, version: int, meta: Json)
    ensures ReadStatusUpdated(OrderStatusUpdated(orderId, status, version, meta))
         == Some((orderId, status, version, if Truthy(meta) then meta else Obj(map[])))
  {
  }

  /** How the broker would behave if contacted: accept the message, or fail at any step. */
  datatype Transport = Reachable | Failing

  /** What `_publish` achieved. None of the three is an error for the caller. */
  datatype Delivery = Suppressed | Sent | Dropped

  /**
    `_publish(routing_key, payload)`. With no host configured (unset or empty)
    nothing is sent; otherwise a transport failure is caught and the event is
    dropped. The result type has no failure case: publishing never raises.
   */
  function Publish(host: Option<string>, e: Event, transport: Transport): (d: Delivery)
    ensures d == Suppressed <==> host.None? || host.value == ""
    ensures d == Sent <==> host.Some? && host.value != "" && transport == Reachable
  {
    if host.None? || host.value == "" then Suppressed
    else
      match transport
      case Reachable => Sent
      case Failing => Dropped
  }
}

=== FILE: pump_events.dfy ===
/**
  The pure pieces of the traffic generator: the `HTTP_PATHS` parser and one
  iteration of the event loop on its mirror of live orders. The random
  choices of the loop are parameters.
 */
module PumpEvents {
  import opened Wrappers
  import opened Json
  import opened Text
  import opened Models
  import opened Validators
  import Publisher
  import Views

  /** One `METHOD:/path` entry: the HTTP method (`verb`) and the path. */
  datatype Route = Route(verb: string, path: string)

  /** `path if path.startswith("/") else f"/{path}"`. */
  function Rooted(path: string): (r: string)
    ensures |r| > 0 && r[0] == '/'
    ensures r == path || r == "/" + path
    ensures |path| > 0 && path[0] == '/' ==> r == path
  {
    if |path| > 0 && path[0] == '/' then path else "/" + path
  }

  /** What every parsed route looks like: an upper-case method and a rooted path. */
  predicate Shaped(r: Route) {
    NoLowerAscii(r.verb) && |r.path| > 0 && r.path[0] == '/'
  }

  /** One stripped entry: split at its first colon, or verb `GET` for the whole entry. */
  function ParseEntry(entry: string): (r: Route)
    ensures Shaped(r)
  {
    var (verb, path) := if ':' in entry then SplitFirst(entry, ':') else ("GET", entry);
    Route(Upper(verb), Rooted(path))
  }

  /** An entry without a colon is a `GET` of the whole entry. */
  lemma EntryWithoutColon(entry: string)
    requires ':' !in entry
    ensures ParseEntry(entry) == Route("GET", Rooted(entry))
  {
  }

  /** Only the first colon splits: everything after it, colons included, is the path. */
  lemma {:induction false} EntrySplitsAtFirstColon(verb: string, path: string)
    requires ':' !in verb
    ensures ParseEntry(verb + ":" + path) == Route(Upper(verb), Rooted(path))
  {
    var entry := verb + ":" + path;
    assert entry == verb + [':'] + path;
    IndexOfAfter(verb, ':', path);
    assert entry[..|verb|] == verb && entry[|verb| + 1..] == path;
  }

  /** A lower-case method is capitalised letter by letter: `get:/orders` is a GET of `/orders`. */
  lemma LowerVerbCapitalised()
    ensures ParseEntry("get:/orders") == Route("GET", "/orders")
  {
    EntrySplitsAtFirstColon("get", "/orders");
    assert "get:/orders" == "get" + ":" + "/orders";
    assert Upper("get") == "GET";
  }

  /** The loop over the comma-separated pieces: strip each, skip the blank ones, parse the rest. */
  function ParseEntries(pieces: seq<string>): (routes: seq<Route>)
    ensures |routes| <= |pieces|
    ensures forall k :: 0 <= k < |routes| ==> Shaped(routes[k])
  {
    if pieces == [] then []
    else
      var entry := Strip(pieces[0]);
      if entry == [] then ParseEntries(pieces[1..])
      else
        var route := ParseEntry(entry);
        var rest := ParseEntries(pieces[1..]);
        ShapedCons(route, rest);
        [route] + rest
  }

  lemma ShapedCons(route: Route, rest: seq<Route>)
    requires Shaped(route) && forall k :: 0 <= k < |rest| ==> Shaped(rest[k])
    ensures forall k :: 0 <= k < |rest| + 1 ==> Shaped(([route] + rest)[k])
  {
    forall k | 0 <= k < |rest| + 1 ensures Shaped(([route] + rest)[k]) {
      if k > 0 {
        assert ([route] + rest)[k] == rest[k - 1];
      }
    }
  }

  /** `_parse_http_paths(raw)`. */
  function ParseHttpPaths(raw: string): (routes: seq<Route>)
    ensures raw == [] ==> routes == []
    ensures ',' !in raw ==> routes == if Strip(raw) == [] then [] else [ParseEntry(Strip(raw))]
    ensures |routes| <= |Split(raw, ',')|
    ensures forall k :: 0 <= k < |routes| ==> Shaped(routes[k])
  {
    if raw == [] then [] else ParseEntries(Split(raw, ','))
  }

  /** The routes of consecutive runs of pieces are the routes of each run, in order. */
  lemma {:induction false} ParseEntriesAppend(a: seq<string>, b: seq<string>)
    ensures ParseEntries(a + b) == ParseEntries(a) + ParseEntries(b)
    decreases |a|
  {
    if a != [] {
      assert (a + b)[0] == a[0] && (a + b)[1..] == a[1..] + b;
      ParseEntriesAppend(a[1..], b);
    } else {
      assert a + b == b;
    }
  }

  /** One piece gives no route when it is blank, and otherwise the route of its stripped text. */
  lemma OnePiece(piece: string)
    ensures ParseEntries([piece]) == if Strip(piece) == [] then [] else [ParseEntry(Strip(piece))]
  {
    assert [piece][1..] == [];
  }

  /** Pieces that are all whitespace contribute nothing, wherever they stand. */
  lemma {:induction false} BlankPiecesSkipped(before: seq<string>, blanks: seq<string>, after: seq<string>)
    requires forall k :: 0 <= k < |blanks| ==> Strip(blanks[k]) == []
    ensures ParseEntries(before + blanks + after) == ParseEntries(before + after)
  {
    var head := ParseEntries(before);
    var tail := ParseEntries(after);
    AllBlank(blanks);
    ParseEntriesAppend(before, blanks);
    assert ParseEntries(before + blanks) == head + [];
    ParseEntriesAppend(before + blanks, after);
    ParseEntriesAppend(before, after);
    assert head + [] == head;
  }

  lemma {:induction false} AllBlank(pieces: seq<string>)
    requires forall k :: 0 <= k < |pieces| ==> Strip(pieces[k]) == []
    ensures ParseEntries(pieces) == []
  {
    if pieces != [] {
      AllBlank(pieces[1..]);
    }
  }

  /** A comma splits `HTTP_PATHS` into two lists whose routes follow one another. */
  lemma HttpPathsAround(a: string, b: string)
    ensures ParseHttpPaths(a + [','] + b) == ParseHttpPaths(a) + ParseHttpPaths(b)
  {
    SplitAround(a, ',', b);
    ParseEntriesAppend(Split(a, ','), Split(b, ','));
    PathsArePieces(a);
    PathsArePieces(b);
    PathsArePieces(a + [','] + b);
  }

  /** Empty text, too, reads as the routes of its pieces. */
  lemma PathsArePieces(raw: string)
    ensures ParseHttpPaths(raw) == ParseEntries(Split(raw, ','))
  {
    if raw == [] {
      assert Split(raw, ',') == [raw];
    }
  }

  /** With no blank piece, every piece yields one route, in the order of the pieces. */
  lemma {:induction false} EntriesInOrder(pieces: seq<string>)
    requires forall k :: 0 <= k < |pieces| ==> Strip(pieces[k]) != []
    ensures var routes := ParseEntries(pieces);
      |routes| == |pieces| && forall k :: 0 <= k < |pieces| ==> routes[k] == ParseEntry(Strip(pieces[k]))
  {
    if pieces != [] {
      EntriesInOrder(pieces[1..]);
      var routes := ParseEntries(pieces);
      assert routes == [ParseEntry(Strip(pieces[0]))] + ParseEntries(pieces[1..]);
      forall k | 1 <= k < |pieces| ensures routes[k] == ParseEntry(Strip(pieces[k])) {
        assert pieces[1..][k - 1] == pieces[k];
      }
    }
  }

  /** A route `HTTP_PATHS` can spell so that parsing reads it back unchanged. */
  predicate Canonical(r: Route) {
    && NoLowerAscii(r.verb) && ':' !in r.verb && ',' !in r.verb
    && (r.verb == [] || !IsSpace(r.verb[0]))
    && |r.path| > 0 && r.path[0] == '/' && ',' !in r.path && !IsSpace(r.path[|r.path| - 1])
  }

  function RenderRoute(r: Route): string {
    r.verb + ":" + r.path
  }

  /** The `HTTP_PATHS` text listing `routes`. */
  function RenderRoutes(routes: seq<Route>): string {
    if routes == [] then ""
    else Join(seq(|routes|, k requires 0 <= k < |routes| => RenderRoute(routes[k])), ',')
  }

  lemma RenderedRouteParses(r: Route)
    requires Canonical(r)
    ensures Strip(RenderRoute(r)) == RenderRoute(r) != []
    ensures ParseEntry(RenderRoute(r)) == r
  {
    var text := RenderRoute(r);
    assert text[0] == if r.verb == [] then ':' else r.verb[0];
    assert text[|text| - 1] == r.path[|r.path| - 1];
    StripPadded("", text, "");
    assert "" + text + "" == text;
    EntrySplitsAtFirstColon(r.verb, r.path);
    UpperIdempotent(r.verb);
  }

  lemma {:induction false} RenderedEntriesParse(routes: seq<Route>, pieces: seq<string>)
    requires forall k :: 0 <= k < |routes| ==> Canonical(routes[k])
    requires |pieces| == |routes| && forall k :: 0 <= k < |routes| ==> pieces[k] == RenderRoute(routes[k])
    ensures ParseEntries(pieces) == routes
  {
    if routes != [] {
      RenderedEntriesParse(routes[1..], pieces[1..]);
      RenderedEntryStep(routes[0], pieces[0], pieces[1..], routes[1..]);
      assert pieces == [pieces[0]] + pieces[1..];
      assert routes == [routes[0]] + routes[1..];
    }
  }

  lemma RenderedEntryStep(r: Route, piece: string, rest: seq<string>, restRoutes: seq<Route>)
    requires Canonical(r) && piece == RenderRoute(r)
    requires ParseEntries(rest) == restRoutes
    ensures ParseEntries([piece] + rest) == [r] + restRoutes
  {
    RenderedRouteParses(r);
    assert ([piece] + rest)[0] == piece && ([piece] + rest)[1..] == rest;
  }

  /** Parsing the text of canonical routes gives back the routes, in order. */
  lemma RoutesRoundTrip(routes: seq<Route>)
    requires forall k :: 0 <= k < |routes| ==> Canonical(routes[k])
    ensures ParseHttpPaths(RenderRoutes(routes)) == routes
  {
    if routes != [] {
      var pieces := seq(|routes|, k requires 0 <= k < |routes| => RenderRoute(routes[k]));
      forall k | 0 <= k < |pieces| ensures ',' !in pieces[k] {
        assert pieces[k] == routes[k].verb + [':'] + routes[k].path;
      }
      SplitJoin(pieces, ',');
      RenderedRouteParses(routes[0]);
      assert RenderRoutes(routes) != [] by {
        assert |Join(pieces, ',')| >= |pieces[0]|;
      }
      RenderedEntriesParse(routes, pieces);
    }
  }

  /** `STATUSES_FLOW.get(status, [])`. */
  function StatusesFlow(status: string): seq<string> {
    if status == "CREATED" then ["UPDATED", "CANCELLED", "SHIPPED"]
    else if status == "UPDATED" then ["SHIPPED", "CANCELLED"]
    else if status == "SHIPPED" then ["DELIVERED"]
    else if status == "DELIVERED" then []
    else if status == "CANCELLED" then []
    else []
  }

  /** The generator's flow lists, without repeats, exactly the transitions the validator allows. */
  lemma FlowIsAllowedTransitions(status: string)
    ensures forall next :: next in StatusesFlow(status) <==> next in AllowedTransitions(status)
    ensures forall i, j :: 0 <= i < j < |StatusesFlow(status)| ==> StatusesFlow(status)[i] != StatusesFlow(status)[j]
  {
  }

  /** The generator's copy of an order's status and version. */
  datatype Mirror = Mirror(status: string, version: int)

  type LiveOrders = map<string, Mirror>

  /** The mirror after one iteration, and the event published in it (if any). */
  datatype Tick = Tick(live: LiveOrders, emitted: Option<Publisher.Event>)

  /**
    One iteration of the loop in `main`. `coin` is `random.random() < 0.5`,
    `newId` the result of `rand_order_id()`, `pick` the order drawn from the
    mirror and `choice` selects among its next statuses.
   */
  function GeneratorStep(live: LiveOrders, coin: bool, newId: string, pick: string, choice: nat): (t: Tick)
    requires |live| > 0 && !coin ==> pick in live
    ensures |live| == 0 || coin ==>
      && t.live == live[newId := Mirror("CREATED", 0)]
      && t.emitted == Some(Publisher.OrderCreated(newId, "CREATED"))
    ensures |live| > 0 && !coin && StatusesFlow(live[pick].status) == [] ==> t == Tick(live, None)
    ensures |live| > 0 && !coin && StatusesFlow(live[pick].status) != [] ==>
      && t.live.Keys == live.Keys
      && ValidateStatusTransition(Some(live[pick].status), Str(t.live[pick].status)).Permitted?
      && t.live[pick].version == live[pick].version + 1
      && (forall other :: other in live && other != pick ==> t.live[other] == live[other])
      && t.emitted == Some(Publisher.OrderStatusUpdated(pick, t.live[pick].status, t.live[pick].version, Null))
  {
    if |live| == 0 || coin then
      var payload := map["order_id" := Str(newId), "status" := Str("CREATED")];
      Tick(live[newId := Mirror("CREATED", 0)], Some(Publisher.Event("order.created", payload)))
    else
      var m := live[pick];
      var next := StatusesFlow(m.status);
      if next == [] then Tick(live, None)
      else
        var newStatus := next[choice % |next|];
        FlowIsAllowedTransitions(m.status);
        TableIsGraph(m.status, newStatus);
        var payload := map["order_id" := Str(pick), "new_status" := Str(newStatus), "version" := Int(m.version + 1)];
        Tick(live[pick := Mirror(newStatus, m.version + 1)], Some(Publisher.Event("order.status.updated", payload)))
  }

  /** Every mirrored status is one the table knows, and its version leaves room for the open chain. */
  predicate MirrorWellFormed(live: LiveOrders) {
    forall id :: id in live ==>
      Parse(live[id].status).Some? && 0 <= live[id].version && live[id].version + HeightOf(live[id].status) <= 3
  }

  /** Each iteration keeps the mirror well formed. */
  lemma GeneratorPreservesMirror(live: LiveOrders, coin: bool, newId: string, pick: string, choice: nat)
    requires MirrorWellFormed(live)
    requires |live| > 0 && !coin ==> pick in live
    ensures MirrorWellFormed(GeneratorStep(live, coin, newId, pick, choice).live)
  {
    var t := GeneratorStep(live, coin, newId, pick, choice);
    if !(|live| == 0 || coin) && StatusesFlow(live[pick].status) != [] {
      PermitsLowersHeight(live[pick].status, t.live[pick].status);
    }
  }

  /**
    When the service holds the same row as the mirror, the update the
    generator announces is one the service would accept with the mirror's
    version as the expected one, ending in the same status and version.
   */
  lemma ServiceAcceptsGeneratedUpdate(live: LiveOrders, pick: string, choice: nat, store: Store)
    requires pick in live && StatusesFlow(live[pick].status) != []
    requires pick in store && store[pick] == Row(live[pick].status, live[pick].version)
    ensures var t := GeneratorStep(live, false, pick, pick, choice);
      var body := Some(Obj(map["status" := Str(t.live[pick].status), "version" := Int(live[pick].version)]));
      var r := Views.UpdateStatus(store, pick, body);
      && r.reply == Views.UpdateView(pick, t.live[pick].status, t.live[pick].version)
      && r.store[pick] == Row(t.live[pick].status, t.live[pick].version)
  {
    var t := GeneratorStep(live, false, pick, pick, choice);
    var fields := map["status" := Str(t.live[pick].status), "version" := Int(live[pick].version)];
    assert Views.FilterOf(fields) == Views.Expect(live[pick].version);
  }
}

=== FILE: text.dfy ===
/**
  The slice of Python's `str` behaviour the model needs: `strip`, `split` on a
  single separator, ASCII `upper`, the decimal rendering and parsing of `int`,
  and `int()` applied to text.
 */
module Text {
  import opened Wrappers

  /** The characters for which Python's `str.isspace()` holds. */
  predicate IsSpace(c: char) {
    var n := c as int;
    || n == 0x20 || 0x09 <= n <= 0x0D || 0x1C <= n <= 0x1F || n == 0x85 || n == 0xA0
    || n == 0x1680 || 0x2000 <= n <= 0x200A || n == 0x2028 || n == 0x2029
    || n == 0x202F || n == 0x205F || n == 0x3000
  }

  /** `s.lstrip()`: the suffix left after dropping leading whitespace. */
  function StripLeft(s: string): (r: string)
    ensures |r| <= |s| && r == s[|s| - |r|..]
    ensures forall i :: 0 <= i < |s| - |r| ==> IsSpace(s[i])
    ensures r == [] || !IsSpace(r[0])
  {
    if s != [] && IsSpace(s[0]) then StripLeft(s[1..]) else s
  }

  /** `s.rstrip()`: the prefix left after dropping trailing whitespace. */
  function StripRight(s: string): (r: string)
    ensures |r| <= |s| && r == s[..|r|]
    ensures forall i :: |r| <= i < |s| ==> IsSpace(s[i])
    ensures r == [] || !IsSpace(r[|r| - 1])
  {
    if s != [] && IsSpace(s[|s| - 1]) then StripRight(s[..|s| - 1]) else s
  }

  /** `s.strip()`: empty exactly when `s` is all whitespace, otherwise bounded by non-whitespace. */
  function Strip(s: string): (r: string)
    ensures |r| <= |s|
    ensures r == [] <==> forall i :: 0 <= i < |s| ==> IsSpace(s[i])
    ensures r != [] ==> !IsSpace(r[0]) && !IsSpace(r[|r| - 1])
  {
    var l := StripLeft(s);
    StripBlank(s, l);
    StripRight(l)
  }

  /** When nothing survives the right strip, every character of `s` was whitespace. */
  lemma StripBlank(s: string, l: string)
    requires l == StripLeft(s)
    ensures StripRight(l) == [] ==> forall i :: 0 <= i < |s| ==> IsSpace(s[i])
  {
    if StripRight(l) == [] {
      assert l == [];
    }
  }

  /** Whitespace around text that is already trimmed is exactly what `strip` removes. */
  lemma {:induction false} StripPadded(pre: string, s: string, post: string)
    requires forall i :: 0 <= i < |pre| ==> IsSpace(pre[i])
    requires forall i :: 0 <= i < |post| ==> IsSpace(post[i])
    requires s == [] || (!IsSpace(s[0]) && !IsSpace(s[|s| - 1]))
    ensures Strip(pre + s + post) == s
  {
    if s == [] {
      assert pre + s + post == pre + post;
      assert forall i :: 0 <= i < |pre + post| ==> IsSpace((pre + post)[i]);
    } else {
      StripLeftPadded(pre, s + post);
      assert pre + s + post == pre + (s + post);
      StripRightPadded(s, post);
    }
  }

  lemma {:induction false} StripLeftPadded(pre: string, s: string)
    requires forall i :: 0 <= i < |pre| ==> IsSpace(pre[i])
    requires s != [] && !IsSpace(s[0])
    ensures StripLeft(pre + s) == s
    decreases |pre|
  {
    if pre != [] {
      assert (pre + s)[0] == pre[0] && IsSpace(pre[0]);
      assert (pre + s)[1..] == pre[1..] + s;
      assert forall i :: 0 <= i < |pre[1..]| ==> pre[1..][i] == pre[i + 1];
      StripLeftPadded(pre[1..], s);
    } else {
      assert pre + s == s;
    }
  }

  lemma {:induction false} StripRightPadded(s: string, post: string)
    requires forall i :: 0 <= i < |post| ==> IsSpace(post[i])
    requires s != [] && !IsSpace(s[|s| - 1])
    ensures StripRight(s + post) == s
    decreases |post|
  {
    if post != [] {
      var t := s + post;
      assert t[|t| - 1] == post[|post| - 1] && IsSpace(post[|post| - 1]);
      assert t[..|t| - 1] == s + post[..|post| - 1];
      StripRightPadded(s, post[..|post| - 1]);
    } else {
      assert s + post == s;
    }
  }

  /** Position of the first occurrence of `c` in `s`. */
  function IndexOf(s: string, c: char): (i: nat)
    requires c in s
    ensures i < |s| && s[i] == c && c !in s[..i]
    ensures forall j :: 0 <= j < i ==> s[j] != c
  {
    if s[0] == c then 0 else 1 + IndexOf(s[1..], c)
  }

  /** In `a + [c] + b` with no `c` in `a`, the first `c` is the one after `a`. */
  lemma {:induction false} IndexOfAfter(a: string, c: char, b: string)
    requires c !in a
    ensures c in a + [c] + b && IndexOf(a + [c] + b, c) == |a|
  {
    var s := a + [c] + b;
    assert s[|a|] == c;
    if a != [] {
      assert s[1..] == a[1..] + [c] + b;
      assert c !in a[1..] by {
        assert forall k :: 0 <= k < |a[1..]| ==> a[1..][k] == a[k + 1];
      }
      IndexOfAfter(a[1..], c, b);
    }
  }

  /** `s.split(sep)` for a one-character separator: always at least one piece, none holding `sep`. */
  function Split(s: string, sep: char): (pieces: seq<string>)
    ensures |pieces| >= 1
    ensures forall k :: 0 <= k < |pieces| ==> sep !in pieces[k]
    decreases |s|
  {
    if sep !in s then [s]
    else
      var i := IndexOf(s, sep);
      [s[..i]] + Split(s[i + 1..], sep)
  }

  /** `sep.join(pieces)` for a non-empty list. */
  function Join(pieces: seq<string>, sep: char): string
    requires |pieces| >= 1
  {
    if |pieces| == 1 then pieces[0] else pieces[0] + [sep] + Join(pieces[1..], sep)
  }

  lemma JoinCons(head: string, pieces: seq<string>, sep: char)
    requires |pieces| >= 1
    ensures Join([head] + pieces, sep) == head + [sep] + Join(pieces, sep)
  {
    assert ([head] + pieces)[1..] == pieces;
  }

  /** Joining the pieces of a split gives back the text. */
  lemma {:induction false} JoinSplit(s: string, sep: char)
    ensures Join(Split(s, sep), sep) == s
    decreases |s|
  {
    if sep in s {
      var i := IndexOf(s, sep);
      var rest := s[i + 1..];
      assert Split(s, sep) == [s[..i]] + Split(rest, sep);
      JoinCons(s[..i], Split(rest, sep), sep);
      JoinSplit(rest, sep);
      assert s == s[..i] + [sep] + rest;
    }
  }

  /** Splitting a join of separator-free pieces gives back the pieces. */
  lemma {:induction false} SplitJoin(pieces: seq<string>, sep: char)
    requires |pieces| >= 1
    requires forall k :: 0 <= k < |pieces| ==> sep !in pieces[k]
    ensures Split(Join(pieces, sep), sep) == pieces
    decreases |pieces|
  {
    if |pieces| > 1 {
      var head := pieces[0];
      var rest := Join(pieces[1..], sep);
      var s := Join(pieces, sep);
      assert s == head + [sep] + rest;
      IndexOfAfter(head, sep, rest);
      assert s[..|head|] == head && s[|head| + 1..] == rest;
      assert Split(s, sep) == [head] + Split(rest, sep);
      assert forall k :: 0 <= k < |pieces[1..]| ==> sep !in pieces[1..][k] by {
        forall k | 0 <= k < |pieces[1..]| ensures sep !in pieces[1..][k] {
          assert pieces[1..][k] == pieces[k + 1];
        }
      }
      SplitJoin(pieces[1..], sep);
      assert pieces == [head] + pieces[1..];
    }
  }

  /** Appending text after an occurrence of `c` does not move the first `c`. */
  lemma IndexOfPrefix(a: string, t: string, c: char)
    requires c in a
    ensures c in a + t && IndexOf(a + t, c) == IndexOf(a, c)
  {
    var i := IndexOf(a, c);
    assert (a + t)[i] == c;
  }

  /** A separator between two texts splits the whole into the pieces of each. */
  lemma {:induction false} SplitAround(a: string, sep: char, b: string)
    ensures Split(a + [sep] + b, sep) == Split(a, sep) + Split(b, sep)
    decreases |a|
  {
    if sep !in a {
      SplitAtFirst(a, sep, b);
    } else {
      var i := IndexOf(a, sep);
      SplitAround(a[i + 1..], sep, b);
      SplitAroundStep(a, sep, b);
    }
  }

  /** The inductive step of `SplitAround`: the first piece of `a` heads both sides. */
  lemma SplitAroundStep(a: string, sep: char, b: string)
    requires sep in a
    requires var rest := a[IndexOf(a, sep) + 1..];
      Split(rest + [sep] + b, sep) == Split(rest, sep) + Split(b, sep)
    ensures Split(a + [sep] + b, sep) == Split(a, sep) + Split(b, sep)
  {
    var i := IndexOf(a, sep);
    SplitPastFirst(a, sep, b);
    assert Split(a, sep) == [a[..i]] + Split(a[i + 1..], sep);
  }

  /** When `a` holds no separator, the first piece is `a` and the rest is split from `b`. */
  lemma SplitAtFirst(a: string, sep: char, b: string)
    requires sep !in a
    ensures Split(a + [sep] + b, sep) == [a] + Split(b, sep)
  {
    var s := a + [sep] + b;
    IndexOfAfter(a, sep, b);
    assert s[..|a|] == a && s[|a| + 1..] == b;
  }

  /** When `a` holds a separator, the first piece comes from `a` and the rest is split from what follows it. */
  lemma SplitPastFirst(a: string, sep: char, b: string)
    requires sep in a
    ensures var i := IndexOf(a, sep);
      Split(a + [sep] + b, sep) == [a[..i]] + Split(a[i + 1..] + [sep] + b, sep)
  {
    var s := a + [sep] + b;
    var i := IndexOf(a, sep);
    IndexOfPrefix(a, [sep] + b, sep);
    assert s == a + ([sep] + b);
    assert s[..i] == a[..i];
    assert s[i + 1..] == a[i + 1..] + [sep] + b;
  }

  /** The last piece of a split is everything after the last separator. */
  lemma SplitLastPiece(s: string, sep: char, j: nat)
    requires j < |s| && s[j] == sep && sep !in s[j + 1..]
    ensures var pieces := Split(s, sep); pieces[|pieces| - 1] == s[j + 1..]
  {
    assert s == s[..j] + [sep] + s[j + 1..];
    SplitAround(s[..j], sep, s[j + 1..]);
    assert Split(s[j + 1..], sep) == [s[j + 1..]];
  }

  /** The first `sep` splits `s` in two: `s.split(sep, 1)`. */
  function SplitFirst(s: string, sep: char): (halves: (string, string))
    requires sep in s
    ensures halves.0 + [sep] + halves.1 == s
    ensures sep !in halves.0
  {
    var i := IndexOf(s, sep);
    assert s == s[..i] + [sep] + s[i + 1..];
    (s[..i], s[i + 1..])
  }

  predicate IsLowerAscii(c: char) {
    'a' <= c <= 'z'
  }

  /** `c.upper()` on ASCII: a lower-case letter becomes its capital, any other character is kept. */
  function ToUpperAscii(c: char): (u: char)
    ensures IsLowerAscii(c) ==> u == (c as int - 32) as char && 'A' <= u <= 'Z'
    ensures !IsLowerAscii(c) ==> u == c
    ensures !IsLowerAscii(u)
  {
    if IsLowerAscii(c) then (c as int - 32) as char else c
  }

  /** `s.upper()` on the ASCII letters: each character is upper-cased in place, so no lower-case ASCII letter survives. */
  function Upper(s: string): (r: string)
    ensures |r| == |s|
    ensures NoLowerAscii(r)
    ensures forall i :: 0 <= i < |s| ==> r[i] == ToUpperAscii(s[i])
  {
    if s == [] then [] else [ToUpperAscii(s[0])] + Upper(s[1..])
  }

  predicate NoLowerAscii(s: string) {
    forall i :: 0 <= i < |s| ==> !IsLowerAscii(s[i])
  }

  /** Upper-casing text with no lower-case ASCII letters leaves it as it is. */
  lemma UpperIdempotent(s: string)
    requires NoLowerAscii(s)
    ensures Upper(s) == s
  {
  }

  predicate IsDigit(c: char) {
    '0' <= c <= '9'
  }

  predicate IsDigits(s: string) {
    s != [] && forall i :: 0 <= i < |s| ==> IsDigit(s[i])
  }

  function DigitChar(d: nat): (c: char)
    requires d < 10
    ensures IsDigit(c) && DigitValue(c) == d
  {
    ('0' as int + d) as char
  }

  /** The decimal digits of a natural number, most significant first. */
  function Digits(n: nat): (r: string)
    ensures IsDigits(r)
  {
    if n < 10 then [DigitChar(n)] else Digits(n / 10) + [DigitChar(n % 10)]
  }

  function DigitValue(c: char): (d: nat)
    requires IsDigit(c)
    ensures d < 10
  {
    c as int - '0' as int
  }

  /** The value of a string of decimal digits. */
  function DigitsValue(s: string): nat
    requires forall i :: 0 <= i < |s| ==> IsDigit(s[i])
  {
    if s == [] then 0 else DigitsValue(s[..|s| - 1]) * 10 + DigitValue(s[|s| - 1])
  }

  /** Python's `str(n)` for an `int`. */
  function Decimal(n: int): (r: string)
    ensures r != [] && (IsDigit(r[0]) || r[0] == '-')
    ensures forall i :: 0 <= i < |r| ==> IsDigit(r[i]) || (i == 0 && r[i] == '-')
  {
    if n < 0 then "-" + Digits(-n) else Digits(n)
  }

  /** Python's `int(s)` on already-stripped text: an optional sign, then ASCII digits. */
  function ParseInt(s: string): Option<int> {
    if s != [] && (s[0] == '-' || s[0] == '+') then
      if IsDigits(s[1..]) then
        var v: int := DigitsValue(s[1..]);
        Some(if s[0] == '-' then -v else v)
      else None
    else if IsDigits(s) then Some(DigitsValue(s))
    else None
  }

  lemma {:induction false} DigitsRoundTrip(n: nat)
    ensures DigitsValue(Digits(n)) == n
  {
    if n >= 10 {
      var s := Digits(n);
      assert s[..|s| - 1] == Digits(n / 10);
      DigitsRoundTrip(n / 10);
    }
  }

  /** Reading back the decimal rendering of an integer gives the integer. */
  lemma DecimalRoundTrip(n: int)
    ensures ParseInt(Decimal(n)) == Some(n)
  {
    if n < 0 {
      assert Decimal(n)[1..] == Digits(-n);
      DigitsRoundTrip(-n);
    } else {
      DigitsRoundTrip(n);
    }
  }

  /**
    The information separators U+001C..U+001F: `str.isspace()` holds for
    them, but `int()` does not skip them.
   */
  predicate IsInfoSeparator(c: char) {
    0x1C <= c as int <= 0x1F
  }

  predicate HasInfoSeparator(s: string) {
    exists i :: 0 <= i < |s| && IsInfoSeparator(s[i])
  }

  /**
    The most digits `int()` converts from text: Python's default
    `sys.int_info.default_max_str_digits`. Longer numerals raise ValueError.
   */
  const MaxStrDigits: nat := 4300

  /** The number of digits `ParseInt` reads from `t`: everything after an optional sign. */
  function DigitCount(t: string): nat {
    if t != [] && (t[0] == '-' || t[0] == '+') then |t| - 1 else |t|
  }

  /**
    Python's `int(s)` for text. It skips the surrounding `str.isspace()`
    characters other than the information separators, then reads an
    optional sign and at most `MaxStrDigits` ASCII digits. An information
    separator is neither skipped nor a sign or a digit, so one anywhere in
    `s` makes it fail.
   */
  function IntOfText(s: string): (r: Option<int>)
    ensures HasInfoSeparator(s) ==> r.None?
    ensures DigitCount(Strip(s)) > MaxStrDigits ==> r.None?
    ensures r.Some? ==> r == ParseInt(Strip(s))
    ensures r.None? <==>
      HasInfoSeparator(s) || DigitCount(Strip(s)) > MaxStrDigits || ParseInt(Strip(s)).None?
  {
    if HasInfoSeparator(s) then None
    else
      var t := Strip(s);
      if DigitCount(t) > MaxStrDigits then None else ParseInt(t)
  }

  /**
    `int()` reads the decimal rendering of `n` back as `n`, whatever
    whitespace it skips surrounds it, as long as it is within the digit limit.
   */
  lemma IntOfPaddedDecimal(pre: string, n: int, post: string)
    requires DigitCount(Decimal(n)) <= MaxStrDigits
    requires forall i :: 0 <= i < |pre| ==> IsSpace(pre[i]) && !IsInfoSeparator(pre[i])
    requires forall i :: 0 <= i < |post| ==> IsSpace(post[i]) && !IsInfoSeparator(post[i])
    ensures IntOfText(pre + Decimal(n) + post) == Some(n)
  {
    var d := Decimal(n);
    var s := pre + d + post;
    assert !HasInfoSeparator(s) by {
      forall i | 0 <= i < |s| ensures !IsInfoSeparator(s[i]) {
        if i < |pre| {
          assert s[i] == pre[i];
        } else if i < |pre| + |d| {
          assert s[i] == d[i - |pre|];
        } else {
          assert s[i] == post[i - |pre| - |d|];
        }
      }
    }
    assert !IsSpace(d[0]) && !IsSpace(d[|d| - 1]);
    StripPadded(pre, d, post);
    DecimalRoundTrip(n);
  }

  /** An information separator is whitespace to `strip` but not to `int()`. */
  lemma InfoSeparatorNotSkipped()
    ensures Strip([0x1C as char, '1']) == "1"
    ensures IntOfText([0x1C as char, '1']) == None
  {
    StripPadded([0x1C as char], "1", "");
    assert [0x1C as char] + "1" + "" == [0x1C as char, '1'];
    assert IsInfoSeparator([0x1C as char, '1'][0]);
  }

  /** A numeral longer than the digit limit is refused, whatever its value. */
  lemma LongNumeralRefused(t: string)
    requires IsDigits(t) && |t| > MaxStrDigits
    ensures IntOfText(t) == None
  {
    NumeralIsPlain(t);
    assert DigitCount(t) == |t|;
  }

  /** A numeral holds neither whitespace at its ends nor an information separator. */
  lemma NumeralIsPlain(t: string)
    requires IsDigits(t)
    ensures Strip(t) == t && !HasInfoSeparator(t)
  {
    assert !HasInfoSeparator(t) by {
      forall i | 0 <= i < |t| ensures !IsInfoSeparator(t[i]) {
        assert IsDigit(t[i]);
      }
    }
    assert IsDigit(t[0]) && IsDigit(t[|t| - 1]);
    StripPadded("", t, "");
    assert "" + t + "" == t;
  }
}

=== FILE: validators.dfy ===
/**
  The order status state machine: the fixed transition table and the
  decision function that permits or rejects a requested status change.
 */
module Validators {
  import opened Wrappers
  import opened Json

  /** The five statuses the table knows. */
  datatype Status = Created | Updated | Shipped | Delivered | Cancelled

  function Name(s: Status): string {
    match s
    case Created => "CREATED"
    case Updated => "UPDATED"
    case Shipped => "SHIPPED"
    case Delivered => "DELIVERED"
    case Cancelled => "CANCELLED"
  }

  /** The status a name denotes, if any: the inverse of `Name`. */
  function Parse(name: string): (r: Option<Status>)
    ensures r.Some? ==> Name(r.value) == name
    ensures forall s :: Name(s) == name ==> r == Some(s)
  {
    if name == "CREATED" then Some(Created)
    else if name == "UPDATED" then Some(Updated)
    else if name == "SHIPPED" then Some(Shipped)
    else if name == "DELIVERED" then Some(Delivered)
    else if name == "CANCELLED" then Some(Cancelled)
    else None
  }

  /** The transition graph on statuses. */
  function Successors(s: Status): set<Status> {
    match s
    case Created => {Updated, Cancelled, Shipped}
    case Updated => {Shipped, Cancelled}
    case Shipped => {Delivered}
    case Delivered => {}
    case Cancelled => {}
  }

  /** `_ALLOWED_TRANSITIONS.get(current, set())`: the table keyed by status text, empty for an unknown key. */
  function AllowedTransitions(current: string): set<string> {
    if current == "CREATED" then {"UPDATED", "CANCELLED", "SHIPPED"}
    else if current == "UPDATED" then {"SHIPPED", "CANCELLED"}
    else if current == "SHIPPED" then {"DELIVERED"}
    else if current == "DELIVERED" then {}
    else if current == "CANCELLED" then {}
    else {}
  }

  /** One edge of the transition graph, between the statuses two texts name. */
  predicate Permits(current: string, next: string) {
    && Parse(current).Some?
    && Parse(next).Some?
    && Parse(next).value in Successors(Parse(current).value)
  }

  /** The text-keyed table and the status graph are the same relation. */
  lemma {:induction false} TableIsGraph(current: string, next: string)
    ensures next in AllowedTransitions(current) <==> Permits(current, next)
  {
  }

  /** The outcome of `validate_status_transition`: it returns, raises `InvalidStatus`, or raises TypeError. */
  datatype Verdict = Permitted | InvalidStatus(message: string) | TypeError

  /**
    `validate_status_transition(current, new)`. No current status (creation)
    permits anything; otherwise the new value must be a status text the table
    lists for the current one. A list or dict as the new value cannot be hashed
    for the membership test and raises TypeError.
   */
  function ValidateStatusTransition(current: Option<string>, newStatus: Json): (v: Verdict)
    ensures current.None? ==> v == Permitted
    ensures current.Some? ==> (v == Permitted <==> newStatus.Str? && Permits(current.value, newStatus.s))
    ensures v.TypeError? <==> current.Some? && !Hashable(newStatus)
    ensures v.InvalidStatus? ==>
      v.message == "No permitido pasar de " + current.value + " a " + Display(newStatus)
  {
    if current.None? then Permitted
    else if !Hashable(newStatus) then TypeError
    else if newStatus.Str? && newStatus.s in AllowedTransitions(current.value) then Permitted
    else InvalidStatus("No permitido pasar de " + current.value + " a " + Display(newStatus))
  }

  /** Repeating the current status is rejected, whatever the status. */
  lemma NoSelfTransition(status: string)
    ensures ValidateStatusTransition(Some(status), Str(status)).InvalidStatus?
  {
  }

  /** DELIVERED and CANCELLED are terminal: every requested value is rejected. */
  lemma TerminalStatuses(newStatus: Json)
    ensures !ValidateStatusTransition(Some("DELIVERED"), newStatus).Permitted?
    ensures !ValidateStatusTransition(Some("CANCELLED"), newStatus).Permitted?
  {
  }

  /** A current status the table does not list rejects every requested value. */
  lemma UnknownStatusRejects(current: string, newStatus: Json)
    requires Parse(current).None?
    ensures !ValidateStatusTransition(Some(current), newStatus).Permitted?
  {
  }

  /** The longest chain of permitted transitions starting at a status. */
  function Height(s: Status): nat {
    match s
    case Created => 3
    case Updated => 2
    case Shipped => 1
    case Delivered => 0
    case Cancelled => 0
  }

  /** `Height` of a status text; 0 for text the table does not know. */
  function HeightOf(name: string): (h: nat)
    ensures h <= 3
  {
    match Parse(name)
    case None => 0
    case Some(s) => Height(s)
  }

  /** Every permitted transition strictly lowers the height, so the graph has no cycle. */
  lemma PermitsLowersHeight(current: string, next: string)
    requires Permits(current, next)
    ensures HeightOf(next) < HeightOf(current)
  {
  }

  /** A sequence of status texts each of which may follow the one before. */
  predicate IsChain(path: seq<string>) {
    forall i :: 0 <= i < |path| - 1 ==> ValidateStatusTransition(Some(path[i]), Str(path[i + 1])).Permitted?
  }

  /** A chain of permitted transitions takes at most `HeightOf` of its first status steps, and never more than 3. */
  lemma {:induction false} ChainBound(path: seq<string>)
    requires IsChain(path) && path != []
    ensures |path| - 1 <= HeightOf(path[0])
    ensures |path| <= 4
  {
    if |path| > 1 {
      assert ValidateStatusTransition(Some(path[0]), Str(path[1])).Permitted?;
      PermitsLowersHeight(path[0], path[1]);
      assert IsChain(path[1..]) by {
        forall i | 0 <= i < |path[1..]| - 1
          ensures ValidateStatusTransition(Some(path[1..][i]), Str(path[1..][i + 1])).Permitted?
        {
          assert path[1..][i] == path[i + 1] && path[1..][i + 1] == path[i + 2];
        }
      }
      ChainBound(path[1..]);
    }
  }

  /** The bound is reached: CREATED, UPDATED, SHIPPED, DELIVERED is a chain. */
  lemma LongestChain()
    ensures IsChain(["CREATED", "UPDATED", "SHIPPED", "DELIVERED"])
  {
  }
}

=== FILE: views.dfy ===
/**
  The three request handlers over the order table. Each request is one
  atomic step from a store to a reply and a new store: the row lock and the
  transaction of `update_status` become the indivisibility of that step.
  A request body is `None` when it is not valid JSON, and the decoded value
  otherwise.
 */
module Views {
  import opened Wrappers
  import opened Json
  import opened Text
  import opened Models
  import opened Validators
  import Publisher

  /** The answer of a view, by kind; `Code` gives its HTTP status. */
  datatype Reply =
    | OrderView(id: string, status: string, version: int)
    | CreationView(created: bool, id: string, status: string, version: int)
    | UpdateView(id: string, status: string, version: int)
    | BadRequest(reason: string)
    | NotFound
    | Conflict
    | ServerError

  function Code(r: Reply): int {
    match r
    case OrderView(_, _, _) => 200
    case CreationView(created, _, _, _) => if created then 201 else 200
    case UpdateView(_, _, _) => 200
    case BadRequest(_) => 400
    case NotFound => 404
    case Conflict => 409
    case ServerError => 500
  }

  /** The body of the 400 answer for an undecodable body or a missing key. */
  const InvalidPayload: string := "invalid payload"

  /** `get_order(order_id)`: the stored columns of the order, or not found. */
  function GetOrder(store: Store, orderId: string): (r: Reply)
    ensures r.OrderView? <==> orderId in store
    ensures r.OrderView? ==> r.id == orderId && Row(r.status, r.version) == store[orderId]
    ensures !r.OrderView? ==> r == NotFound
  {
    if orderId in store then OrderView(orderId, store[orderId].status, store[orderId].version)
    else NotFound
  }

  datatype CreateResult = CreateResult(reply: Reply, store: Store)

  /**
    `create_order`: reads `id` (required) and `status` (default `CREATED`)
    from the body, then gets or creates the row.
   */
  function CreateOrder(store: Store, body: Option<Json>): (r: CreateResult)
    ensures r.reply.BadRequest? <==> body.None? || (body.value.Obj? && "id" !in body.value.fields)
    ensures r.reply.BadRequest? || r.reply.CreationView? || r.reply.ServerError?
    ensures r.reply.BadRequest? ==> r.reply.reason == InvalidPayload
    ensures r.reply.ServerError? <==>
      && body.Some?
      && (|| !body.value.Obj?
          || (&& "id" in body.value.fields
              && !(body.value.fields["id"].Str? && body.value.fields["id"].s in store)
              && !Insertable(store, body.value.fields["id"], Get(body.value.fields, "status", Str("CREATED")))))
    ensures r.reply.CreationView? || r.store == store
    ensures r.reply.CreationView? ==>
      && body.Some? && body.value.Obj? && "id" in body.value.fields
      && body.value.fields["id"] == Str(r.reply.id)
      && r.reply.id in r.store && r.store[r.reply.id] == Row(r.reply.status, r.reply.version)
    ensures r.reply.CreationView? && !r.reply.created ==> r.reply.id in store && r.store == store
    ensures r.reply.CreationView? && !r.reply.created <==>
      && body.Some? && body.value.Obj? && "id" in body.value.fields
      && body.value.fields["id"].Str? && body.value.fields["id"].s in store
    ensures r.reply.CreationView? && r.reply.created <==>
      && body.Some? && body.value.Obj? && "id" in body.value.fields
      && Insertable(store, body.value.fields["id"], Get(body.value.fields, "status", Str("CREATED")))
    ensures r.reply.CreationView? && r.reply.created ==>
      && r.reply.id !in store
      && r.reply.version == 0
      && Str(r.reply.status) == Get(body.value.fields, "status", Str("CREATED"))
      && r.store == store[r.reply.id := Row(r.reply.status, 0)]
  {
    match body
    case None => CreateResult(BadRequest(InvalidPayload), store)
    case Some(Obj(fields)) =>
      if "id" !in fields then CreateResult(BadRequest(InvalidPayload), store)
      else GetOrCreate(store, fields["id"], Get(fields, "status", Str("CREATED")))
    case Some(_) => CreateResult(ServerError, store)
  }

  /**
    `Order.objects.get_or_create(id=oid, defaults={"status": status})`. An
    existing row is returned untouched. A new row must fit the column widths,
    or the database rejects the insert.
   */
  function GetOrCreate(store: Store, oid: Json, status: Json): (r: CreateResult)
    ensures oid.Str? && oid.s in store ==>
      r == CreateResult(CreationView(false, oid.s, store[oid.s].status, store[oid.s].version), store)
    ensures Insertable(store, oid, status) ==>
      r == CreateResult(CreationView(true, oid.s, status.s, 0), store[oid.s := Row(status.s, 0)])
    ensures r.reply.ServerError? <==> !(oid.Str? && oid.s in store) && !Insertable(store, oid, status)
    ensures r.reply.ServerError? || r.reply.CreationView?
    ensures r.reply.ServerError? ==> r.store == store
  {
    if !oid.Str? then CreateResult(ServerError, store)
    else if oid.s in store then
      CreateResult(CreationView(false, oid.s, store[oid.s].status, store[oid.s].version), store)
    else if !status.Str? || |oid.s| > MaxIdLength || |status.s| > MaxStatusLength then
      CreateResult(ServerError, store)
    else
      var row := NewRow(status.s);
      CreateResult(CreationView(true, oid.s, row.status, row.version), store[oid.s := row])
  }

  /** A new row for `oid` with `status` can be inserted: the id is new text and both fit their columns. */
  predicate Insertable(store: Store, oid: Json, status: Json) {
    && oid.Str? && oid.s !in store && |oid.s| <= MaxIdLength
    && status.Str? && |status.s| <= MaxStatusLength
  }

  /** How the query treats the optional `version` field of an update body. */
  datatype VersionFilter = Unfiltered | Expect(version: int) | Uncomparable

  /**
    `expected = body.get("version")` then `filter(version=expected)` when it
    is not None. The integer column converts the value with `int()`: a bool
    counts as 0 or 1, text is read as `int()` reads it, anything else raises.
   */
  function ExpectedVersion(expected: Json): (f: VersionFilter)
    ensures f.Unfiltered? <==> expected.Null?
    ensures expected.Bool? ==> f == Expect(if expected.b then 1 else 0)
    ensures expected.Int? ==> f == Expect(expected.i)
    ensures expected.Str? ==> (f.Uncomparable? <==> IntOfText(expected.s).None?)
    ensures expected.Str? && IntOfText(expected.s).Some? ==> f == Expect(IntOfText(expected.s).value)
    ensures expected.Arr? || expected.Obj? ==> f.Uncomparable?
  {
    match expected
    case Null => Unfiltered
    case Bool(b) => Expect(if b then 1 else 0)
    case Int(i) => Expect(i)
    case Str(s) =>
      (match IntOfText(s)
       case Some(v) => Expect(v)
       case None => Uncomparable)
    case Arr(_) => Uncomparable
    case Obj(_) => Uncomparable
  }

  /** `select_for_update().filter(id=order_id)`, narrowed by the version filter, then `.first()`. */
  function LockRow(store: Store, orderId: string, filter: VersionFilter): (row: Option<Row>)
    requires !filter.Uncomparable?
    ensures row.Some? <==> orderId in store && (filter.Expect? ==> store[orderId].version == filter.version)
    ensures row.Some? ==> row.value == store[orderId]
  {
    if orderId in store && (filter.Unfiltered? || store[orderId].version == filter.version)
    then Some(store[orderId])
    else None
  }

  /** The reply, the store after the step, and the event handed to the publisher (if any). */
  datatype UpdateResult = UpdateResult(reply: Reply, store: Store, event: Option<Publisher.Event>)

  /** `body.get("meta", {})`. */
  function MetaOf(fields: map<string, Json>): Json {
    Get(fields, "meta", Obj(map[]))
  }

  /** The version filter an update body asks for. */
  function FilterOf(fields: map<string, Json>): VersionFilter {
    ExpectedVersion(Get(fields, "version", Null))
  }

  /**
    `update_status(order_id)`: read the body, lock the row (optionally at an
    expected version), tell not-found from version conflict, validate the
    transition, then write the new status and `version + 1` in one step.
    The event is built from the values written, after the step.
   */
  function UpdateStatus(store: Store, orderId: string, body: Option<Json>): (r: UpdateResult)
    ensures r.reply.UpdateView? || (r.store == store && r.event.None?)
    ensures r.reply.UpdateView? <==>
      && body.Some? && body.value.Obj? && "status" in body.value.fields
      && !FilterOf(body.value.fields).Uncomparable?
      && LockRow(store, orderId, FilterOf(body.value.fields)).Some?
      && body.value.fields["status"].Str?
      && Permits(store[orderId].status, body.value.fields["status"].s)
    ensures r.reply.UpdateView? ==>
      && orderId in store
      && r.reply == UpdateView(orderId, body.value.fields["status"].s, store[orderId].version + 1)
      && r.store == store[orderId := Row(r.reply.status, r.reply.version)]
      && r.event == Some(Publisher.OrderStatusUpdated(orderId, r.reply.status, r.reply.version,
                                                      MetaOf(body.value.fields)))
    ensures r.reply.NotFound? ==> orderId !in store
    ensures r.reply.Conflict? ==>
      && orderId in store
      && body.Some? && body.value.Obj?
      && FilterOf(body.value.fields).Expect?
      && FilterOf(body.value.fields).version != store[orderId].version
    ensures r.reply.BadRequest? <==>
      || body.None?
      || (&& body.value.Obj?
          && ("status" !in body.value.fields
              || (&& !FilterOf(body.value.fields).Uncomparable?
                  && LockRow(store, orderId, FilterOf(body.value.fields)).Some?
                  && Hashable(body.value.fields["status"])
                  && !(body.value.fields["status"].Str?
                       && Permits(store[orderId].status, body.value.fields["status"].s)))))
    ensures r.reply.BadRequest? && (body.None? || "status" !in body.value.fields) ==>
      r.reply.reason == InvalidPayload
    ensures r.reply.ServerError? <==>
      && body.Some?
      && (|| !body.value.Obj?
          || (&& "status" in body.value.fields
              && (|| FilterOf(body.value.fields).Uncomparable?
                  || (&& LockRow(store, orderId, FilterOf(body.value.fields)).Some?
                      && !Hashable(body.value.fields["status"])))))
    ensures r.reply.UpdateView? || r.reply.BadRequest? || r.reply.NotFound? || r.reply.Conflict? || r.reply.ServerError?
  {
    match body
    case None => UpdateResult(BadRequest(InvalidPayload), store, None)
    case Some(Obj(fields)) =>
      if "status" !in fields then UpdateResult(BadRequest(InvalidPayload), store, None)
      else Transition(store, orderId, fields["status"], FilterOf(fields), MetaOf(fields))
    case Some(_) => UpdateResult(ServerError, store, None)
  }

  /** The transaction of `update_status` once the body has been read. */
  function Transition(store: Store, orderId: string, newStatus: Json, filter: VersionFilter, meta: Json)
    : (r: UpdateResult)
    ensures r.reply.UpdateView? || (r.store == store && r.event.None?)
  {
    if filter.Uncomparable? then UpdateResult(ServerError, store, None)
    else
      match LockRow(store, orderId, filter)
      case None =>
        if orderId in store && filter.Expect? then UpdateResult(Conflict, store, None)
        else UpdateResult(NotFound, store, None)
      case Some(row) =>
        match ValidateStatusTransition(Some(row.status), newStatus)
        case TypeError => UpdateResult(ServerError, store, None)
        case InvalidStatus(message) => UpdateResult(BadRequest(message), store, None)
        case Permitted =>
          var updated := Row(newStatus.s, row.version + 1);
          UpdateResult(
            UpdateView(orderId, updated.status, updated.version),
            store[orderId := updated],
            Some(Publisher.OrderStatusUpdated(orderId, updated.status, updated.version, meta)))
  }

  /** The reply and store of an update, with what became of its event. */
  datatype Exchange = Exchange(reply: Reply, store: Store, delivery: Option<Publisher.Delivery>)

  /**
    The whole request: the update step, then publishing its event (if any)
    to a broker at `host` that behaves as `transport`. The delivery is
    recorded but nothing is derived from it.
   */
  function HandleUpdate(store: Store, orderId: string, body: Option<Json>,
                        host: Option<string>, transport: Publisher.Transport): (x: Exchange)
    ensures x.delivery.Some? <==> x.reply.UpdateView?
  {
    var r := UpdateStatus(store, orderId, body);
    var delivery := if r.event.Some? then Some(Publisher.Publish(host, r.event.value, transport)) else None;
    Exchange(r.reply, r.store, delivery)
  }

  /**
    The store invariant: ids and statuses fit their columns, and each
    version plus the longest chain still open to its status is at most 3.
   */
  predicate WellFormed(store: Store) {
    forall id :: id in store ==>
      && |id| <= MaxIdLength
      && |store[id].status| <= MaxStatusLength
      && 0 <= store[id].version
      && store[id].version + HeightOf(store[id].status) <= 3
  }
}

=== FILE: views_properties.dfy ===
/** Properties of the request handlers that relate several requests or states. */
module ViewsProperties {
  import opened Wrappers
  import opened Json
  import opened Text
  import opened Models
  import opened Validators
  import opened Views
  import Publisher

  /** An update on an id the store does not hold is not found, with or without a version, and writes nothing. */
  lemma UpdateMissingOrder(store: Store, orderId: string, fields: map<string, Json>)
    requires orderId !in store
    requires "status" in fields && !FilterOf(fields).Uncomparable?
    ensures var r := UpdateStatus(store, orderId, Some(Obj(fields)));
      r.reply == NotFound && Code(r.reply) == 404 && r.store == store && r.event.None?
  {
  }

  /** An update whose expected version differs from the stored one is a conflict, never not-found nor success. */
  lemma UpdateStaleVersion(store: Store, orderId: string, fields: map<string, Json>)
    requires orderId in store
    requires "status" in fields && FilterOf(fields).Expect?
    requires FilterOf(fields).version != store[orderId].version
    ensures var r := UpdateStatus(store, orderId, Some(Obj(fields)));
      r.reply == Conflict && Code(r.reply) == 409 && r.store == store && r.event.None?
  {
  }

  /** A transition the state machine rejects answers 400 with its message and writes nothing. */
  lemma UpdateRejected(store: Store, orderId: string, fields: map<string, Json>)
    requires orderId in store && "status" in fields
    requires !FilterOf(fields).Uncomparable?
    requires FilterOf(fields).Expect? ==> FilterOf(fields).version == store[orderId].version
    requires Hashable(fields["status"])
    requires !(fields["status"].Str? && Permits(store[orderId].status, fields["status"].s))
    ensures var r := UpdateStatus(store, orderId, Some(Obj(fields)));
      && r.reply == BadRequest("No permitido pasar de " + store[orderId].status + " a " + Display(fields["status"]))
      && Code(r.reply) == 400 && r.store == store && r.event.None?
  {
  }

  /** A body without `status` is a bad payload, whatever the store holds. */
  lemma UpdateNeedsStatus(store: Store, orderId: string, fields: map<string, Json>)
    requires "status" !in fields
    ensures UpdateStatus(store, orderId, Some(Obj(fields))) == UpdateResult(BadRequest(InvalidPayload), store, None)
  {
  }

  /** A body that is not valid JSON is a bad payload, whatever the store holds. */
  lemma UpdateUndecodable(store: Store, orderId: string)
    ensures UpdateStatus(store, orderId, None) == UpdateResult(BadRequest(InvalidPayload), store, None)
  {
  }

  /** A body that decodes to something other than an object raises TypeError: 500, nothing written. */
  lemma UpdateNonObject(store: Store, orderId: string, body: Json)
    requires !body.Obj?
    ensures UpdateStatus(store, orderId, Some(body)) == UpdateResult(ServerError, store, None)
  {
  }

  /** A list or object as the new status of a found row raises TypeError: 500, nothing written. */
  lemma UpdateUnhashableStatus(store: Store, orderId: string, fields: map<string, Json>)
    requires "status" in fields && !Hashable(fields["status"])
    requires !FilterOf(fields).Uncomparable? && LockRow(store, orderId, FilterOf(fields)).Some?
    ensures UpdateStatus(store, orderId, Some(Obj(fields))) == UpdateResult(ServerError, store, None)
  {
  }

  /**
    A permitted update writes the new status and the next version to its own
    row only, and answers with the values written, which the row then holds.
   */
  lemma UpdateAccepted(store: Store, orderId: string, fields: map<string, Json>, other: string)
    requires orderId in store && "status" in fields && fields["status"].Str?
    requires !FilterOf(fields).Uncomparable?
    requires FilterOf(fields).Expect? ==> FilterOf(fields).version == store[orderId].version
    requires Permits(store[orderId].status, fields["status"].s)
    requires other != orderId
    ensures var r := UpdateStatus(store, orderId, Some(Obj(fields)));
      && r.reply == UpdateView(orderId, fields["status"].s, store[orderId].version + 1)
      && GetOrder(r.store, orderId) == OrderView(orderId, r.reply.status, r.reply.version)
      && GetOrder(r.store, other) == GetOrder(store, other)
      && r.store.Keys == store.Keys
  {
  }

  /** Creating an existing id answers 200 with the stored row and changes nothing. */
  lemma CreateExisting(store: Store, id: string, fields: map<string, Json>)
    requires id in store && "id" in fields && fields["id"] == Str(id)
    ensures var r := CreateOrder(store, Some(Obj(fields)));
      && r.reply == CreationView(false, id, store[id].status, store[id].version)
      && Code(r.reply) == 200 && r.store == store
  {
  }

  /** Creating a new id with a fitting id and no status inserts a CREATED row at version 0 and answers 201. */
  lemma CreateNewDefault(store: Store, id: string)
    requires id !in store && |id| <= MaxIdLength
    ensures var r := CreateOrder(store, Some(Obj(map["id" := Str(id)])));
      && r.reply == CreationView(true, id, "CREATED", 0)
      && Code(r.reply) == 201
      && r.store == store[id := Row("CREATED", 0)]
  {
  }

  /** A new id with an explicit status that fits its column is stored with that status at version 0. */
  lemma CreateNewWithStatus(store: Store, id: string, status: string, others: map<string, Json>)
    requires id !in store && |id| <= MaxIdLength && |status| <= MaxStatusLength
    ensures var r := CreateOrder(store, Some(Obj(others["id" := Str(id)]["status" := Str(status)])));
      && r.reply == CreationView(true, id, status, 0)
      && Code(r.reply) == 201
      && r.store == store[id := Row(status, 0)]
  {
  }

  /**
    A version sent as the decimal text of `n`, padded with whitespace `int()`
    skips and within its digit limit, selects version `n`.
   */
  lemma VersionTextSelects(pre: string, n: int, post: string)
    requires DigitCount(Decimal(n)) <= MaxStrDigits
    requires forall i :: 0 <= i < |pre| ==> IsSpace(pre[i]) && !IsInfoSeparator(pre[i])
    requires forall i :: 0 <= i < |post| ==> IsSpace(post[i]) && !IsInfoSeparator(post[i])
    ensures ExpectedVersion(Str(pre + Decimal(n) + post)) == Expect(n)
  {
    IntOfPaddedDecimal(pre, n, post);
  }

  /** A version padded with an information separator cannot be compared, so the update fails with 500. */
  lemma VersionWithInfoSeparator(store: Store, orderId: string, status: Json)
    ensures var body := Some(Obj(map["status" := status, "version" := Str([0x1C as char, '1'])]));
      UpdateStatus(store, orderId, body) == UpdateResult(ServerError, store, None)
  {
    InfoSeparatorNotSkipped();
  }

  /** A version numeral longer than `int()` accepts fails the conversion, so the update fails with 500. */
  lemma VersionTooLong(store: Store, orderId: string, status: Json, numeral: string)
    requires IsDigits(numeral) && |numeral| > MaxStrDigits
    ensures var body := Some(Obj(map["status" := status, "version" := Str(numeral)]));
      UpdateStatus(store, orderId, body) == UpdateResult(ServerError, store, None)
  {
    LongNumeralRefused(numeral);
  }

  /** A body without `id` is a bad payload and the store is not touched. */
  lemma CreateNeedsId(store: Store, fields: map<string, Json>)
    requires "id" !in fields
    ensures CreateOrder(store, Some(Obj(fields))) == CreateResult(BadRequest(InvalidPayload), store)
  {
  }

  /** Creating twice is the same as creating once: the second answers `created=false` with what the first stored. */
  lemma CreateIdempotent(store: Store, first: Option<Json>, second: Option<Json>)
    requires var r := CreateOrder(store, first); r.reply.CreationView?
    requires second.Some? && second.value.Obj? && "id" in second.value.fields
    requires second.value.fields["id"] == first.value.fields["id"]
    ensures var r1 := CreateOrder(store, first);
      var r2 := CreateOrder(r1.store, second);
      && r2.store == r1.store
      && r2.reply == CreationView(false, r1.reply.id, r1.reply.status, r1.reply.version)
  {
  }

  /** Creation keeps the store invariant. */
  lemma CreatePreservesWellFormed(store: Store, body: Option<Json>)
    requires WellFormed(store)
    ensures WellFormed(CreateOrder(store, body).store)
  {
    var r := CreateOrder(store, body);
    if r.reply.CreationView? && r.reply.created {
      var fields := body.value.fields;
      assert fields["id"] == Str(r.reply.id);
      assert |r.reply.id| <= MaxIdLength && |r.reply.status| <= MaxStatusLength;
    }
  }

  /** An update keeps the store invariant: the version grows by one as the open chain shrinks by at least one. */
  lemma UpdatePreservesWellFormed(store: Store, orderId: string, body: Option<Json>)
    requires WellFormed(store)
    ensures WellFormed(UpdateStatus(store, orderId, body).store)
  {
    var r := UpdateStatus(store, orderId, body);
    if r.reply.UpdateView? {
      PermitsLowersHeight(store[orderId].status, r.reply.status);
    }
  }

  /** In a well-formed store no version exceeds 3, so the integer column cannot overflow. */
  lemma VersionBounded(store: Store, orderId: string)
    requires WellFormed(store) && orderId in store
    ensures 0 <= store[orderId].version <= 3
  {
  }

  /** Whatever the broker's host and behaviour, the reply and the store are the same. */
  lemma PublishOutcomeIrrelevant(store: Store, orderId: string, body: Option<Json>,
                                 host1: Option<string>, transport1: Publisher.Transport,
                                 host2: Option<string>, transport2: Publisher.Transport)
    ensures var x1 := HandleUpdate(store, orderId, body, host1, transport1);
      var x2 := HandleUpdate(store, orderId, body, host2, transport2);
      x1.reply == x2.reply && x1.store == x2.store
  {
  }

  /** The store after a sequence of updates to one id, and how many of them succeeded. */
  function ApplyUpdates(store: Store, orderId: string, bodies: seq<Option<Json>>): (Store, nat)
    decreases |bodies|
  {
    if bodies == [] then (store, 0)
    else
      var r := UpdateStatus(store, orderId, bodies[0]);
      var rest := ApplyUpdates(r.store, orderId, bodies[1..]);
      (rest.0, rest.1 + if r.reply.UpdateView? then 1 else 0)
  }

  /** Each success adds exactly one to the version and each failure adds nothing; other rows never change. */
  lemma {:induction false} VersionCountsSuccesses(store: Store, orderId: string, bodies: seq<Option<Json>>)
    requires orderId in store
    ensures var (final, n) := ApplyUpdates(store, orderId, bodies);
      && final.Keys == store.Keys
      && final[orderId].version == store[orderId].version + n
      && forall other :: other in store && other != orderId ==> final[other] == store[other]
    decreases |bodies|
  {
    if bodies != [] {
      var r := UpdateStatus(store, orderId, bodies[0]);
      VersionCountsSuccesses(r.store, orderId, bodies[1..]);
    }
  }

  /** After creation, the version of an order is the number of successful updates applied to it. */
  lemma VersionIsSuccessCount(store: Store, id: string, bodies: seq<Option<Json>>)
    requires id !in store && |id| <= MaxIdLength
    ensures var created := CreateOrder(store, Some(Obj(map["id" := Str(id)])));
      var (final, n) := ApplyUpdates(created.store, id, bodies);
      id in final && final[id].version == n
  {
    var created := CreateOrder(store, Some(Obj(map["id" := Str(id)])));
    VersionCountsSuccesses(created.store, id, bodies);
  }

  /** An update body with a new status and an expected version. */
  function VersionedUpdate(status: string, version: int): Option<Json> {
    Some(Obj(map["status" := Str(status), "version" := Int(version)]))
  }

  /**
    Two requests that read the same version, applied one after the other:
    once the first succeeds the second is a conflict, and the version has
    grown by one, not two.
   */
  lemma SameVersionRace(store: Store, orderId: string, first: string, second: string)
    requires orderId in store
    requires UpdateStatus(store, orderId, VersionedUpdate(first, store[orderId].version)).reply.UpdateView?
    ensures var v := store[orderId].version;
      var r1 := UpdateStatus(store, orderId, VersionedUpdate(first, v));
      var r2 := UpdateStatus(r1.store, orderId, VersionedUpdate(second, v));
      && r2.reply == Conflict
      && r2.store[orderId].version == v + 1
  {
    var v := store[orderId].version;
    assert FilterOf(map["status" := Str(first), "version" := Int(v)]) == Expect(v);
    assert FilterOf(map["status" := Str(second), "version" := Int(v)]) == Expect(v);
  }

  /** The replies of the reference scenario: create, update, a skipped step, a versioned update, a stale one. */
  function ScenarioReplies(): seq<Reply> {
    var s0: Store := map[];
    var c := CreateOrder(s0, Some(Obj(map["id" := Str("ORD-1")])));
    var u1 := UpdateStatus(c.store, "ORD-1", Some(Obj(map["status" := Str("UPDATED")])));
    var u2 := UpdateStatus(u1.store, "ORD-1", Some(Obj(map["status" := Str("DELIVERED")])));
    var u3 := UpdateStatus(u2.store, "ORD-1", VersionedUpdate("SHIPPED", 1));
    var u4 := UpdateStatus(u3.store, "ORD-1", VersionedUpdate("DELIVERED", 0));
    [c.reply, u1.reply, u2.reply, u3.reply, u4.reply]
  }

  lemma Scenario()
    ensures ScenarioReplies() == [
      CreationView(true, "ORD-1", "CREATED", 0),
      UpdateView("ORD-1", "UPDATED", 1),
      BadRequest("No permitido pasar de UPDATED a DELIVERED"),
      UpdateView("ORD-1", "SHIPPED", 2),
      Conflict
    ]
  {
    ScenarioCreate();
    ScenarioUpdate();
    ScenarioSkip();
    ScenarioShip();
    ScenarioStale();
  }

  lemma ScenarioCreate()
    ensures var c := CreateOrder(map[], Some(Obj(map["id" := Str("ORD-1")])));
      c.reply == CreationView(true, "ORD-1", "CREATED", 0) && c.store == map["ORD-1" := Row("CREATED", 0)]
  {
  }

  lemma ScenarioUpdate()
    ensures var u := UpdateStatus(map["ORD-1" := Row("CREATED", 0)], "ORD-1", Some(Obj(map["status" := Str("UPDATED")])));
      u.reply == UpdateView("ORD-1", "UPDATED", 1) && u.store == map["ORD-1" := Row("UPDATED", 1)]
  {
    var fields := map["status" := Str("UPDATED")];
    assert "version" !in fields && "meta" !in fields;
    assert FilterOf(fields) == Unfiltered;
    assert ValidateStatusTransition(Some("CREATED"), Str("UPDATED")) == Permitted;
  }

  lemma ScenarioSkip()
    ensures var u := UpdateStatus(map["ORD-1" := Row("UPDATED", 1)], "ORD-1", Some(Obj(map["status" := Str("DELIVERED")])));
      u.reply == BadRequest("No permitido pasar de UPDATED a DELIVERED") && u.store == map["ORD-1" := Row("UPDATED", 1)]
  {
    var store := map["ORD-1" := Row("UPDATED", 1)];
    var fields := map["status" := Str("DELIVERED")];
    assert "version" !in fields;
    assert FilterOf(fields) == Unfiltered;
    assert UpdateStatus(store, "ORD-1", Some(Obj(fields)))
        == Transition(store, "ORD-1", Str("DELIVERED"), Unfiltered, MetaOf(fields));
    SkipRejected(store, MetaOf(fields));
  }

  /** The transaction step of the skipped update: the validator's rejection, with the store untouched. */
  lemma SkipRejected(store: Store, meta: Json)
    requires store == map["ORD-1" := Row("UPDATED", 1)]
    ensures Transition(store, "ORD-1", Str("DELIVERED"), Unfiltered, meta)
      == UpdateResult(BadRequest("No permitido pasar de UPDATED a DELIVERED"), store, None)
  {
    assert LockRow(store, "ORD-1", Unfiltered) == Some(Row("UPDATED", 1));
    assert !Permits("UPDATED", "DELIVERED");
    assert "No permitido pasar de " + "UPDATED" + " a " + Display(Str("DELIVERED"))
        == "No permitido pasar de UPDATED a DELIVERED";
    assert ValidateStatusTransition(Some("UPDATED"), Str("DELIVERED"))
        == InvalidStatus("No permitido pasar de UPDATED a DELIVERED");
  }

  lemma ScenarioShip()
    ensures var u := UpdateStatus(map["ORD-1" := Row("UPDATED", 1)], "ORD-1", VersionedUpdate("SHIPPED", 1));
      u.reply == UpdateView("ORD-1", "SHIPPED", 2) && u.store == map["ORD-1" := Row("SHIPPED", 2)]
  {
    var store := map["ORD-1" := Row("UPDATED", 1)];
    var fields := map["status" := Str("SHIPPED"), "version" := Int(1)];
    assert fields["status"] == Str("SHIPPED") && Get(fields, "version", Null) == Int(1);
    assert FilterOf(fields) == Expect(1);
    assert LockRow(store, "ORD-1", Expect(1)) == Some(Row("UPDATED", 1));
    assert ValidateStatusTransition(Some("UPDATED"), Str("SHIPPED")) == Permitted;
  }

  lemma ScenarioStale()
    ensures UpdateStatus(map["ORD-1" := Row("SHIPPED", 2)], "ORD-1", VersionedUpdate("DELIVERED", 0)).reply == Conflict
  {
    var store := map["ORD-1" := Row("SHIPPED", 2)];
    var fields := map["status" := Str("DELIVERED"), "version" := Int(0)];
    assert Get(fields, "version", Null) == Int(0);
    assert FilterOf(fields) == Expect(0);
    assert LockRow(store, "ORD-1", Expect(0)).None?;
  }
}

=== FILE: wrappers.dfy ===
/** Optional values, standing for Python's `None` where the source returns or passes one. */
module Wrappers {

  datatype Option<+T> = None | Some(value: T)
}
